=== FILE: README.md ===
# EchoThoughts blog: a Dafny model of the comment threading and the site handlers' input rules

EchoThoughts is a Django blogging site. Almost all of it is delegated to the framework: the
ORM stores users, posts, comments and contact messages, the session layer identifies the user,
and templates render the pages. This project models the handful of decisions the site's own
views make, with the ORM replaced by in-memory tables (sequences of records in primary-key
order) and each handler written as a pure function or method that returns the new tables and
the response.

- **Comment threading** (`blogPost`): the post's comments are split into top-level comments and
  replies, and the replies are grouped into `replyDict`, a map from a parent comment's serial
  number to the replies under it, in iteration order.
- **Posting a comment** (`postComment`, POST): a fixed chain of checks. The post must exist,
  then the stripped text must be non-empty, then a given parent serial number must name an
  existing comment. Each outcome picks a redirect. Only the last one stores exactly one
  comment.
- **Contact form** (`contact`): four length thresholds decide whether a Contact is stored.
  Every path renders the same page.
- **Search** (`search`): a query over 78 characters finds nothing. Otherwise the result is the
  union of the posts whose title, content or author's username contains the query, ignoring
  case. The page warns exactly when the result is empty.
- **Sign-up** (`handleSignUp`, POST): three ordered checks (length at most 10, alphanumeric,
  passwords equal). The first one that fails decides the error. A form that passes creates
  exactly one account.

Files:

- `seqs.dfy`: modules `Options` (the `Option` type) and `Seqs`. `Seqs` holds `Filter` (a queryset
  `filter`), `First` (`.first()`) and `Union` (SQL `UNION`, which keeps each row once), with
  their lemmas.
- `text.dfy`: module `Text`. Python's `str.strip` and `str.isalnum`, and the `icontains`
  lookup. `Strip` is pinned down by a uniqueness lemma, and `IContains` by a
  position-based statement of a match.
- `domain.dfy`: module `Domain`. The records `User`, `Post`, `Comment` and `Contact`, the
  message levels, the responses, and serial-number assignment.
- `blog_views.dfy`: module `BlogViews`, modelling `EchoThoughts/Blog/views.py`.
- `home_views.dfy`: module `HomeViews`, modelling `EchoThoughts/home/views.py`.

Modelling choices:

- Request fields are parameters. `postSno` and `parentSno` are integers, possibly negative;
  a negative number matches no row. `postSno` is `None` when it is missing. `parentSno` is
  `None` when it is missing or empty, which is the case `if parent_sno:` treats as "no
  parent". A
  missing comment text is the empty string, as `.get('comment', '')` makes it.
- The user who posts a comment is an authenticated user's username, stored as given. The
  view makes no login check. What happens to an anonymous author is framework behaviour (see
  Left out).
- The database's serial numbers are modelled as "one past the largest in use" (`NextSno`).
  The only property the model relies on is that the new number is larger than every existing
  one.
- Querysets without an ordering are modelled in table order, so `.first()` is the first match
  in the table.
- `str.strip` removes exactly the characters Python's `str.isspace` accepts: U+0009 to U+000D,
  U+001C to U+0020, U+0085, U+00A0, U+1680, U+2000 to U+200A, U+2028, U+2029, U+202F, U+205F
  and U+3000.

Behaviours of the code worth noting:

- `postComment` makes no login check. What happens to an anonymous author is framework
  behaviour (see Left out). The model takes the author as a username parameter.
- A reply's parent is looked up by serial number alone. It may belong to another post (see
  Findings).
- A reply to a reply is stored under that reply. It is not moved up under the top-level
  comment.
- `blogPost` with an unknown slug does not answer "not found". It renders a page with no post,
  no comments and an empty `replyDict`, because `filter(post=None)` matches nothing. The
  repository's test `test_blog_post_view_invalid_slug` (EchoThoughts/test.py:109-112) expects
  a 404 here, so that test and the view disagree. The model follows the view.
- A sign-up form that passes the checks but names a username that is already taken is
  refused by the database's unique constraint. The view does not catch the integrity error,
  so this path is a server error, not a redirect home.

## Model

| member | source | states |
|---|---|---|
| `BlogViews.PostBySlug` | EchoThoughts/Blog/views.py:13 | the post a slug resolves to carries that slug and is in the table, and no earlier post in primary-key order has the slug (the first match); None exactly when no post has the slug |
| `BlogViews.PostBySno` | EchoThoughts/Blog/views.py:34 | the post looked up by `postSno` has that sno; None exactly when no post has it, including when the field is missing |
| `BlogViews.CommentBySno` | EchoThoughts/Blog/views.py:46 | the parent looked up by sno is a comment with that sno from any post; None exactly when no comment has it |
| `BlogViews.FileReplyGroups` | EchoThoughts/Blog/views.py:18-21 | one pass of the loop appends the reply to its parent's list, opening the list on the first reply, and the map stays keyed by exactly the parents seen with each list holding their replies in order |
| `BlogViews.GroupReplies` | EchoThoughts/Blog/views.py:16-21 | the keys of `replyDict` are exactly the parent snos of the replies; each list is the replies to that parent, in iteration order, and is never empty |
| `BlogViews.BlogPost` | EchoThoughts/Blog/views.py:12-24 | the page holds the first post in primary-key order with the slug, its comments with no parent in table order (the `TopLevel` selection), and a `replyDict` whose keys are exactly the parents of its replies, each key mapping to that parent's replies; an unknown slug gives no post, no comments and no replies |
| `Seqs.Filter` | EchoThoughts/Blog/views.py:14-15 | a queryset `filter` keeps exactly the rows satisfying the condition, never more rows than the table |
| `Seqs.First` | EchoThoughts/Blog/views.py:13 | `.first()` is None exactly when no row matches; otherwise it is a matching row preceded by no other matching row |
| `BlogViews.TopLevel` | EchoThoughts/Blog/views.py:14 | `filter(post=post, parent=None)` holds exactly the table's comments on the post that have no parent |
| `BlogViews.Replies` | EchoThoughts/Blog/views.py:15 | `filter(post=post).exclude(parent=None)` holds exactly the table's comments on the post that have a parent |
| `BlogViews.ThreadsPartition` | EchoThoughts/Blog/views.py:14-15 | as multisets, top-level comments plus replies equal all of the post's comments: none lost, none in both groups |
| `BlogViews.ReplyFiledOnce` | EchoThoughts/Blog/views.py:17-21 | when serial numbers are distinct, each reply occurs exactly once under its own parent's sno and under no other key |
| `BlogViews.RepliesKeepOrder` | EchoThoughts/Blog/views.py:18-21 | two replies in one `replyDict` list appear in the same order as the replies were iterated |
| `BlogViews.PostComment` | EchoThoughts/Blog/views.py:26-37 | the post is checked first: an unresolved `postSno` is an invalid post whatever the text and parent, the store is unchanged and the redirect is `/blog/`; otherwise the outcome is that of the checks on the resolved post |
| `BlogViews.CommentOnPost` | EchoThoughts/Blog/views.py:39-59 | all-white-space text is rejected as empty, then a parent sno that names no comment is rejected; on any rejection the store is unchanged; on success exactly one comment is appended with the stripped text, the user, the post and the parent, numbered past every existing comment, and every other comment is unchanged; a reply is reported as such exactly when a parent was given; the redirect is always the post's page |
| `BlogViews.AddComment` | EchoThoughts/Blog/views.py:54-57 | saving a comment appends one row with the given fields and a serial number larger than any in the table, leaving the other rows unchanged |
| `BlogViews.PostCommentKeepsIntegrity` | EchoThoughts/Blog/views.py:44-57 | posting keeps the comment table consistent: increasing serial numbers, every comment's post exists, every parent exists |
| `BlogViews.CrossPostReplyAccepted` | EchoThoughts/Blog/views.py:45-48 | a reply whose parent is a comment of another post is stored as a reply on the submitted post, the comment table no longer keeps replies on their parents' posts, and no top-level comment of the submitted post has the parent's sno |
| `BlogViews.ForeignParentOrphans` | EchoThoughts/Blog/views.py:14-21 | once a reply names a parent from another post, the reply is among its post's replies while none of that post's top-level comments has the parent's sno, so its `replyDict` list hangs under no displayed comment |
| `BlogViews.PostCommentOnPost` | EchoThoughts/Blog/views.py:45-52 | with the parent looked up among the submitted post's comments only, a stored reply's parent is a comment of the same post; the post check and the empty-text check still come first, and they answer exactly as `postComment` does; a refusal of a parent from another post leaves the store unchanged and redirects with an error to the same `/blog/<slug>` page `postComment` would have redirected to; when no comment with the parent's sno lies on another post (or no parent is given), the result is exactly that of `postComment` |
| `BlogViews.ForeignParentRefused` | EchoThoughts/Blog/views.py:45-52 | when serial numbers are distinct, a submission `postComment` would store with a parent from another post is refused as an invalid parent and nothing is stored |
| `BlogViews.PostCommentOnPostKeepsThreads` | EchoThoughts/Blog/views.py:45-57 | with the parent checked against the post, posting keeps every reply's parent on the reply's own post |
| `Text.Strip` | EchoThoughts/Blog/views.py:28 | the stripped text is a contiguous slice of the input, everything before and after it is white space, and it neither starts nor ends with white space; it is empty exactly when the input is all white space |
| `Text.StripUnique` | EchoThoughts/Blog/views.py:28 | any slice flanked only by white space that neither starts nor ends with white space is the stripped text, so the contract of `Strip` defines `str.strip` |
| `Text.IsAlnum` | EchoThoughts/home/views.py:94 | `str.isalnum`, over ASCII, holds exactly when the username has at least one character and every character is an ASCII letter or digit |
| `Text.IContains` | EchoThoughts/home/views.py:61-63 | the field matches exactly when, after case folding both, the query occurs in the field at some position |
| `Seqs.Union` | EchoThoughts/home/views.py:64 | the union holds exactly the values of the three querysets, each once |
| `Domain.NextSno` | EchoThoughts/home/migrations/0001_initial.py:15 | a new row's serial number is positive and larger than every serial number in the table |
| `HomeViews.SubmitContact` | EchoThoughts/home/views.py:20-44 | a POST stores exactly one Contact with the submitted fields if and only if the name has at least 2, the email 3, the phone 10 and the message 2 characters; otherwise the table is unchanged; the message level is success or error accordingly, none for a GET; every path renders the contact page |
| `HomeViews.ContactOutcomesShareThePage` | EchoThoughts/home/views.py:34-44 | a valid submission and one rejected by any of the four thresholds render the same template and differ only in message level and in whether a row was added |
| `HomeViews.SubmitContactKeepsSnosIncreasing` | EchoThoughts/home/views.py:34-40 | every request to the contact page keeps the contact serial numbers strictly increasing along the table |
| `HomeViews.Search` | EchoThoughts/home/views.py:50-71 | a query longer than 78 characters finds nothing; otherwise a post is found if and only if it is stored and its title, content or author's username contains the query ignoring case; no post is found twice; the warning is raised exactly when nothing is found |
| `HomeViews.EmptyQueryMatchesEveryPost` | EchoThoughts/home/views.py:61-64 | the empty query matches the fields of every post |
| `HomeViews.TitlePrefixMatches` | EchoThoughts/test.py:51-55 | a post whose title begins with the query, in any letter case, matches the query, so `Search` finds it when the query has at most 78 characters |
| `HomeViews.FirstFailure` | EchoThoughts/home/views.py:89-102 | the reported error is the first failed check in the order length, alphanumeric, password match; no error exactly when the username has 1 to 10 characters, all ASCII letters or digits, and the passwords are equal |
| `HomeViews.SignUp` | EchoThoughts/home/views.py:73-111 | any failed check rejects the form with that check's error and leaves the accounts unchanged; a form that passes creates exactly one account with the given username, email, password, first and last name, unless the username is taken; an accepted username has 1 to 10 alphanumeric characters; rejections and creations redirect home |
| `HomeViews.SignUpKeepsUsernamesUnique` | EchoThoughts/home/views.py:105 | sign-up never creates a second account with a username already in use |
| `HomeViews.LengthCheckedFirst` | EchoThoughts/home/views.py:89-92 | an over-long username is reported as too long whatever the other fields hold, and nothing is created |

## Findings

| source | as written | input that shows it | evidently intended | confidence | as-written member | corrected member |
|---|---|---|---|---|---|---|
| EchoThoughts/Blog/views.py:45-48 | the parent comment is looked up by sno alone, so a reply can name a comment of another post as its parent | any text that is not all white space, submitted with the `postSno` of one post and, as `parentSno`, the sno of a comment on another post (e.g. post 1 and post 2, comment 1 on post 2, text "hi", `postSno` 1, `parentSno` 1) | a reply's parent belongs to the same post; otherwise the reply is filed in post 1's `replyDict` under a key that is no top-level comment of post 1; a page that lists replies under their top-level comments would not show it | medium, not executed | `BlogViews.CrossPostReplyAccepted` (about `BlogViews.PostComment`) | `BlogViews.PostCommentOnPost`, with `BlogViews.ForeignParentRefused` and `BlogViews.PostCommentOnPostKeepsThreads` |

## Left out

- `createPost`, `editPost`, `deletePost`, `likePost` and `deleteComment` are routed in
  EchoThoughts/Blog/urls.py, but their bodies are not part of this model.
- `blogHome` and `about` are left out. They hand all posts, or nothing, to a template.
- `handeLogin` and `handelLogout` only call the framework's `authenticate`, `login` and
  `logout`.
- `home()`'s featured posts are left out. Its `order_by("likes")` on a many-to-many relation
  has ORM-defined semantics.
- Authentication gating is left out. `postComment` reads `request.user` without a check.
  With an anonymous user, building the comment (EchoThoughts/Blog/views.py:48 or :54) raises
  an error that the view does not catch. Nothing is stored, and the request ends in a server
  error, not a redirect. `test_post_comment_unauthenticated` (EchoThoughts/test.py:124-131)
  expects nothing stored but also a 302 redirect, so that test and the view disagree. This is
  framework behaviour, and the model assumes an authenticated user.
- The non-POST branches are left out. These are `handleSignUp`'s and `handeLogin`'s "404 - Not
  found" answers, and `postComment`'s GET path, which would use an unbound `post`.
- Logging, the message texts and template rendering are left out. The model keeps the
  message level and the template name.
- Non-numeric `postSno` or `parentSno` values are left out. The ORM raises on them.
  Negative numbers are modelled; they match no row.
- Missing form fields in `contact` and `handleSignUp` and a missing `query` in `search` are
  left out. Each raises a key error.
- Column widths are not modelled. The schema limits the Contact name and email to 100
  characters and the phone to 13. The framework's User table limits the first and last name to
  150 characters and the email to 254. PostgreSQL refuses longer values, but the views do not
  check them. In `handleSignUp` this also means a partial creation: `create_user`
  (EchoThoughts/home/views.py:105) commits the account before the names are saved at :108,
  and requests are not atomic. A first or last name over 150 characters therefore gives a
  server error while the account stays created, where `HomeViews.SignUp` answers `Created`
  with the names stored.
- `create_user` hashes the password and normalises the email's domain and the username. The
  model stores the submitted values as given.
- `Text.IsAlnum`: `str.isalnum` is modelled over ASCII letters and digits only. Python also
  accepts other Unicode letters and digits, such as `"é"`. Unicode's character categories are
  not part of this model.
- `HomeViews.FirstFailure`: inherits the ASCII-only alphanumeric check. A username such as
  `"é"` is reported as `InvalidUsername`, where Python's `isalnum` passes it.
- `HomeViews.SignUp`: inherits the ASCII-only alphanumeric check. A non-ASCII alphanumeric
  username is rejected instead of creating an account.
- `Text.IContains`: case folding is ASCII only. This matches SQLite's `LIKE`, which the test
  settings use. PostgreSQL's `UPPER` also folds non-ASCII letters.
- `HomeViews.Search`: the order of the union's rows is not specified by SQL. The model returns
  them in first-occurrence order and states only membership and uniqueness.

=== FILE: blog_views.dfy ===
/** The blog's request handlers with logic of their own (EchoThoughts/Blog/views.py):
    `blogPost`, which splits a post's comments into top-level comments and a map of replies,
    and `postComment`, which validates a submitted comment and stores it. */
module BlogViews {
  import opened Options
  import opened Seqs
  import opened Text
  import opened Domain

  /** The blog's tables, each in primary-key order. */
  datatype Store = Store(posts: seq<Post>, comments: seq<Comment>)

  /** The page `blogPost` renders: the post (None when the slug is unknown), its top-level
      comments, and `replyDict`, from a parent comment's sno to the replies under it. */
  datatype PostPage = PostPage(post: Option<Post>, comments: seq<Comment>,
                               replyDict: map<nat, seq<Comment>>)

  /** A comment submission: the text field (empty when missing), `postSno` (None when
      missing) and `parentSno` (None when the field is missing or empty). The numbers are
      whatever integers the form carried, negative ones included; those match no row. */
  datatype CommentForm = CommentForm(text: string, postSno: Option<int>, parentSno: Option<int>)

  /** How `postComment` ended: one of three rejections, or a stored comment or reply. */
  datatype CommentOutcome = InvalidPost | EmptyComment | InvalidParent | CommentPosted | ReplyPosted {
    predicate Posted() {
      CommentPosted? || ReplyPosted?
    }
  }

  /** The store after `postComment`, how it ended, and the redirect it answered with. */
  datatype CommentReply = CommentReply(store: Store, outcome: CommentOutcome, response: Response)

  /** The blog's index page, and the prefix of every post's detail page. */
  const BlogHome := "/blog/"

  // ---------------------------------------------------------------------------------------
  // Lookups: `Model.objects.filter(...).first()`

  /** Some post has serial number `sno` (a missing `sno` matches no post). */
  predicate HasPost(posts: seq<Post>, sno: Option<int>) {
    exists p :: p in posts && Some(p.sno) == sno
  }

  /** Some comment has serial number `sno`. */
  predicate HasComment(cs: seq<Comment>, sno: int) {
    exists c :: c in cs && c.sno == sno
  }

  function PostBySno(posts: seq<Post>, sno: Option<int>): (r: Option<Post>)
    ensures r.None? <==> !HasPost(posts, sno)
    ensures r.Some? ==> r.value in posts && Some(r.value.sno) == sno
  {
    First(posts, (p: Post) => Some(p.sno) == sno)
  }

  function PostBySlug(posts: seq<Post>, slug: string): (r: Option<Post>)
    ensures r.None? <==> forall p :: p in posts ==> p.slug != slug
    ensures r.Some? ==> r.value in posts && r.value.slug == slug
    ensures r.Some? ==>
      exists i :: 0 <= i < |posts| && posts[i] == r.value && forall j :: 0 <= j < i ==> posts[j].slug != slug
  {
    First(posts, (p: Post) => p.slug == slug)
  }

  function CommentBySno(cs: seq<Comment>, sno: int): (r: Option<Comment>)
    ensures r.None? <==> !HasComment(cs, sno)
    ensures r.Some? ==> r.value in cs && r.value.sno == sno
  {
    First(cs, (c: Comment) => c.sno == sno)
  }

  // ---------------------------------------------------------------------------------------
  // Threading (`blogPost`)

  /** `filter(post=key)`: the comments of the post `key` names; `key == None` (the slug
      matched no post) selects nothing, as every comment belongs to some post. */
  function OnPost(cs: seq<Comment>, key: Option<nat>): seq<Comment> {
    Filter(cs, (c: Comment) => Some(c.post) == key)
  }

  /** `filter(post=key, parent=None)`: the post's top-level comments. */
  function TopLevel(cs: seq<Comment>, key: Option<nat>): (r: seq<Comment>)
    ensures forall c :: c in r <==> c in cs && Some(c.post) == key && c.parent.None?
  {
    Filter(cs, (c: Comment) => Some(c.post) == key && c.parent.None?)
  }

  /** `filter(post=key).exclude(parent=None)`: the post's replies. */
  function Replies(cs: seq<Comment>, key: Option<nat>): (r: seq<Comment>)
    ensures forall c :: c in r <==> c in cs && Some(c.post) == key && c.parent.Some?
  {
    Filter(cs, (c: Comment) => Some(c.post) == key && c.parent.Some?)
  }

  /** The replies whose parent is comment `k`, in iteration order. */
  function RepliesTo(rs: seq<Comment>, k: nat): seq<Comment> {
    Filter(rs, (c: Comment) => c.parent == Some(k))
  }

  /** The snos the replies in `rs` point to. */
  function ParentSnos(rs: seq<Comment>): set<nat> {
    set c | c in rs && c.parent.Some? :: c.parent.value
  }

  /** `d` is `replyDict` as built from the replies `seen`: keyed by exactly their parents'
      snos, each key holding that parent's replies in order. */
  predicate Grouped(d: map<nat, seq<Comment>>, seen: seq<Comment>) {
    && d.Keys == ParentSnos(seen)
    && forall k :: k in d ==> d[k] == RepliesTo(seen, k)
  }

  /** The loop body: append `reply` to the list under its parent's sno, opening the list
      if this is the parent's first reply. */
  function FileReply(d: map<nat, seq<Comment>>, reply: Comment): map<nat, seq<Comment>>
    requires reply.parent.Some?
  {
    var k := reply.parent.value;
    if k !in d then d[k := [reply]] else d[k := d[k] + [reply]]
  }

  /** One more reply adds its parent's sno to the parents seen. */
  lemma ParentSnosSnoc(seen: seq<Comment>, reply: Comment)
    requires reply.parent.Some?
    ensures ParentSnos(seen + [reply]) == ParentSnos(seen) + {reply.parent.value}
  {
  }

  /** A sno no reply points to has no replies. */
  lemma NoParentNoReplies(seen: seq<Comment>, k: nat)
    requires k !in ParentSnos(seen)
    ensures RepliesTo(seen, k) == []
  {
    FilterNone(seen, (c: Comment) => c.parent == Some(k));
  }

  /** Filing a reply appends it to its parent's list, opening the list if needed, and
      leaves every other list as it was. */
  lemma FileReplyEntry(d: map<nat, seq<Comment>>, seen: seq<Comment>, reply: Comment, j: nat)
    requires reply.parent.Some?
    requires Grouped(d, seen)
    requires j in FileReply(d, reply)
    ensures FileReply(d, reply)[j] == RepliesTo(seen + [reply], j)
  {
    FilterSnoc(seen, reply, (c: Comment) => c.parent == Some(j));
    if j !in d {
      NoParentNoReplies(seen, j);
    }
  }

  /** Filing one more reply keeps the map grouped. */
  lemma FileReplyGroups(d: map<nat, seq<Comment>>, seen: seq<Comment>, reply: Comment)
    requires reply.parent.Some?
    requires Grouped(d, seen)
    ensures Grouped(FileReply(d, reply), seen + [reply])
  {
    ParentSnosSnoc(seen, reply);
    forall j | j in FileReply(d, reply)
      ensures FileReply(d, reply)[j] == RepliesTo(seen + [reply], j)
    {
      FileReplyEntry(d, seen, reply, j);
    }
  }

  /** The loop that builds `replyDict`: each reply is appended to the list under its
      parent's sno, a list being opened on that parent's first reply. */
  method GroupReplies(rs: seq<Comment>) returns (d: map<nat, seq<Comment>>)
    requires forall c :: c in rs ==> c.parent.Some?
    ensures d.Keys == ParentSnos(rs)
    ensures forall k :: k in d ==> d[k] == RepliesTo(rs, k)
    ensures forall k :: k in d ==> d[k] != []
  {
    d := map[];
    for i := 0 to |rs|
      invariant Grouped(d, rs[..i])
    {
      var reply := rs[i];
      assert rs[..i + 1] == rs[..i] + [reply];
      FileReplyGroups(d, rs[..i], reply);
      d := FileReply(d, reply);
    }
    assert rs[..|rs|] == rs;
    forall k | k in d
      ensures d[k] != []
    {
      ParentHasReplies(rs, k);
    }
  }

  /** A parent sno some reply points to has a non-empty list of replies. */
  lemma ParentHasReplies(rs: seq<Comment>, k: nat)
    requires k in ParentSnos(rs)
    ensures RepliesTo(rs, k) != []
  {
    var c :| c in rs && c.parent == Some(k);
    assert c in RepliesTo(rs, k);
  }

  /** `blogPost(slug)`: the post with that slug, its top-level comments, and its replies
      grouped by parent. */
  method BlogPost(s: Store, slug: string) returns (page: PostPage)
    ensures page.post.None? <==> forall p :: p in s.posts ==> p.slug != slug
    ensures page.post.Some? ==> page.post.value in s.posts && page.post.value.slug == slug
    ensures page.post.Some? ==>
      exists i :: 0 <= i < |s.posts| && s.posts[i] == page.post.value &&
        forall j :: 0 <= j < i ==> s.posts[j].slug != slug
    ensures page.post.None? ==> page.comments == [] && page.replyDict == map[]
    ensures page.post.Some? ==> page.comments == TopLevel(s.comments, Some(page.post.value.sno))
    ensures page.post.Some? ==>
      page.replyDict.Keys == ParentSnos(Replies(s.comments, Some(page.post.value.sno)))
    ensures forall k :: k in page.replyDict <==>
      exists c :: c in s.comments && page.post.Some? && c.post == page.post.value.sno && c.parent == Some(k)
    ensures forall k :: k in page.replyDict ==>
      page.replyDict[k] != [] && forall c :: c in page.replyDict[k] ==> c.parent == Some(k)
    ensures page.post.Some? ==> forall k :: k in page.replyDict ==>
      page.replyDict[k] == RepliesTo(Replies(s.comments, Some(page.post.value.sno)), k)
  {
    var post := PostBySlug(s.posts, slug);
    if post.None? {
      // `filter(post=None)` matches no comment, so the page has no comments and no replies.
      page := PostPage(None, [], map[]);
    } else {
      var key := Some(post.value.sno);
      var comments := TopLevel(s.comments, key);
      var replies := Replies(s.comments, key);
      var replyDict := GroupReplies(replies);
      page := PostPage(post, comments, replyDict);
    }
  }

  /** Every comment of a post is either top-level or a reply: no comment is in both
      groups, and none is lost. */
  lemma ThreadsPartition(cs: seq<Comment>, key: Option<nat>)
    ensures multiset(TopLevel(cs, key)) + multiset(Replies(cs, key)) == multiset(OnPost(cs, key))
    ensures forall c :: c in TopLevel(cs, key) ==> c !in Replies(cs, key)
  {
    forall c
      ensures (multiset(TopLevel(cs, key)) + multiset(Replies(cs, key)))[c] == multiset(OnPost(cs, key))[c]
    {
      ThreadCount(cs, key, c);
    }
  }

  /** A comment occurs as often among the top-level comments and replies together as among
      all of the post's comments. */
  lemma ThreadCount(cs: seq<Comment>, key: Option<nat>, c: Comment)
    ensures multiset(TopLevel(cs, key))[c] + multiset(Replies(cs, key))[c] == multiset(OnPost(cs, key))[c]
  {
    FilterCount(cs, (c: Comment) => Some(c.post) == key && c.parent.None?, c);
    FilterCount(cs, (c: Comment) => Some(c.post) == key && c.parent.Some?, c);
    FilterCount(cs, (c: Comment) => Some(c.post) == key, c);
  }

  /** Comment serial numbers increase along the table, so no two comments share one. */
  predicate IncreasingSnos(cs: seq<Comment>) {
    IncreasingBy(cs, (c: Comment) => c.sno)
  }

  /** In a table with increasing serial numbers, two positions hold different snos. */
  lemma SnosDiffer(cs: seq<Comment>, i: int, j: int)
    requires IncreasingSnos(cs)
    requires 0 <= i < |cs| && 0 <= j < |cs| && i != j
    ensures cs[i].sno != cs[j].sno
  {
    if i < j {
      assert cs[i].sno < cs[j].sno;
    } else {
      assert cs[j].sno < cs[i].sno;
    }
  }

  /** A table with increasing serial numbers holds no comment twice. */
  lemma IncreasingSnosDistinct(cs: seq<Comment>)
    requires IncreasingSnos(cs)
    ensures Distinct(cs)
  {
    forall i, j | 0 <= i < j < |cs|
      ensures cs[i] != cs[j]
    {
      assert cs[i].sno < cs[j].sno;
    }
  }

  /** In a table whose serial numbers are distinct, a reply of the post is filed exactly
      once, under its own parent's sno, and under no other key. */
  lemma ReplyFiledOnce(cs: seq<Comment>, key: Option<nat>, c: Comment)
    requires IncreasingSnos(cs)
    requires c in Replies(cs, key)
    ensures multiset(RepliesTo(Replies(cs, key), c.parent.value))[c] == 1
    ensures forall k :: k != c.parent.value ==> c !in RepliesTo(Replies(cs, key), k)
  {
    var rs := Replies(cs, key);
    FilterCount(cs, (c: Comment) => Some(c.post) == key && c.parent.Some?, c);
    FilterCount(rs, (r: Comment) => r.parent == Some(c.parent.value), c);
    IncreasingSnosDistinct(cs);
    DistinctCount(cs, c);
  }

  /** Within a list of `replyDict`, replies keep the order in which they were iterated. */
  lemma RepliesKeepOrder(rs: seq<Comment>, k: nat, i: int, j: int)
    requires 0 <= i < j < |RepliesTo(rs, k)|
    ensures exists a, b :: 0 <= a < b < |rs| && rs[a] == RepliesTo(rs, k)[i] && rs[b] == RepliesTo(rs, k)[j]
  {
    FilterKeepsOrder(rs, (c: Comment) => c.parent == Some(k), i, j);
  }

  // ---------------------------------------------------------------------------------------
  // Posting a comment (`postComment`, POST requests)

  /** The comment table is keyed by increasing serial numbers and every reference resolves:
      a comment's post exists, and so does its parent comment when it has one. */
  predicate Integrity(s: Store) {
    && IncreasingSnos(s.comments)
    && (forall c :: c in s.comments ==> HasPost(s.posts, Some(c.post)))
    && (forall c :: c in s.comments && c.parent.Some? ==> HasComment(s.comments, c.parent.value))
  }

  /** The table with one comment appended, numbered past every comment already in it
      (`comment.save()` on a new row). */
  function AddComment(s: Store, text: string, user: string, post: nat, parent: Option<nat>): (r: Store)
    ensures r.posts == s.posts
    ensures |r.comments| == |s.comments| + 1 && r.comments[..|s.comments|] == s.comments
    ensures var c := r.comments[|s.comments|];
      && c.text == text && c.user == user && c.post == post && c.parent == parent
      && forall e :: e in s.comments ==> e.sno < c.sno
  {
    var snos := Map(s.comments, (e: Comment) => e.sno);
    var c := Comment(NextSno(snos), text, user, post, parent);
    assert forall e :: e in s.comments ==> e.sno < c.sno by {
      forall e | e in s.comments
        ensures e.sno < c.sno
      {
        var i :| 0 <= i < |s.comments| && s.comments[i] == e;
        assert snos[i] == e.sno;
      }
    }
    Store(s.posts, s.comments + [c])
  }

  /** `postComment` once the post has resolved to `post`: the stripped text must be
      non-empty, then a given parent sno must name an existing comment of any post. On
      success one comment is appended; every outcome redirects to the post's page. */
  function CommentOnPost(s: Store, user: string, post: Post, f: CommentForm): (r: CommentReply)
    ensures r.store.posts == s.posts
    ensures r.outcome.EmptyComment? <==> AllSpace(f.text)
    ensures r.outcome.InvalidParent? <==>
      !AllSpace(f.text) && f.parentSno.Some? && !HasComment(s.comments, f.parentSno.value)
    ensures !r.outcome.InvalidPost?
    ensures r.outcome.ReplyPosted? <==> r.outcome.Posted() && f.parentSno.Some?
    ensures r.store == s <==> !r.outcome.Posted()
    ensures r.outcome.Posted() ==>
      && |r.store.comments| == |s.comments| + 1
      && r.store.comments[..|s.comments|] == s.comments
      && var c := r.store.comments[|s.comments|];
         && c.text == Strip(f.text) && c.text != []
         && c.user == user
         && c.post == post.sno
         && (f.parentSno.None? ==> c.parent.None?)
         && (f.parentSno.Some? ==> c.parent.Some? && c.parent.value == f.parentSno.value)
         && forall e :: e in s.comments ==> e.sno < c.sno
    ensures r.response == Redirect(BlogHome + post.slug, Some(if r.outcome.Posted() then Success else Error))
  {
    var text := Strip(f.text);
    var back := BlogHome + post.slug;
    if text == [] then
      CommentReply(s, EmptyComment, Redirect(back, Some(Error)))
    else if f.parentSno.Some? && CommentBySno(s.comments, f.parentSno.value).None? then
      CommentReply(s, InvalidParent, Redirect(back, Some(Error)))
    else
      var parent := if f.parentSno.Some? then Some(CommentBySno(s.comments, f.parentSno.value).value.sno) else None;
      var stored := AddComment(s, text, user, post.sno, parent);
      var outcome := if f.parentSno.Some? then ReplyPosted else CommentPosted;
      CommentReply(stored, outcome, Redirect(back, Some(Success)))
  }

  /** `postComment`: the post must exist, and is checked before anything else; a missing
      post sends the user back to the blog's index. */
  function PostComment(s: Store, user: string, f: CommentForm): (r: CommentReply)
    ensures r.outcome.InvalidPost? <==> !HasPost(s.posts, f.postSno)
    ensures r.outcome.InvalidPost? ==> r.store == s && r.response == Redirect(BlogHome, Some(Error))
    ensures !r.outcome.InvalidPost? ==>
      exists p :: p in s.posts && Some(p.sno) == f.postSno && r == CommentOnPost(s, user, p, f)
  {
    match PostBySno(s.posts, f.postSno)
    case None => CommentReply(s, InvalidPost, Redirect(BlogHome, Some(Error)))
    case Some(post) => CommentOnPost(s, user, post, f)
  }

  /** Appending a comment numbered past the table, whose post and parent resolve, keeps
      the table consistent. */
  lemma AppendKeepsIntegrity(s: Store, c: Comment)
    requires Integrity(s)
    requires HasPost(s.posts, Some(c.post))
    requires c.parent.Some? ==> HasComment(s.comments, c.parent.value)
    requires forall e :: e in s.comments ==> e.sno < c.sno
    ensures Integrity(Store(s.posts, s.comments + [c]))
  {
    var cs := s.comments + [c];
    var n := |s.comments|;
    forall i, j | 0 <= i < j < |cs|
      ensures cs[i].sno < cs[j].sno
    {
      assert cs[i] == s.comments[i] && s.comments[i] in s.comments;
      if j < n {
        assert cs[j] == s.comments[j];
      }
    }
    forall d | d in cs && d.parent.Some?
      ensures HasComment(cs, d.parent.value)
    {
      assert HasComment(s.comments, d.parent.value);
      var e :| e in s.comments && e.sno == d.parent.value;
      assert e in cs;
    }
  }

  /** Storing a comment on a resolved post keeps the table consistent. */
  lemma CommentOnPostKeepsIntegrity(s: Store, user: string, post: Post, f: CommentForm)
    requires Integrity(s)
    requires post in s.posts
    ensures Integrity(CommentOnPost(s, user, post, f).store)
  {
    var r := CommentOnPost(s, user, post, f);
    if r.outcome.Posted() {
      var c := r.store.comments[|s.comments|];
      assert r.store.comments == s.comments + [c];
      assert HasPost(s.posts, Some(c.post));
      AppendKeepsIntegrity(s, c);
    }
  }

  /** Posting a comment never breaks the table's consistency. */
  lemma PostCommentKeepsIntegrity(s: Store, user: string, f: CommentForm)
    requires Integrity(s)
    ensures Integrity(PostComment(s, user, f).store)
  {
    var r := PostComment(s, user, f);
    if !r.outcome.InvalidPost? {
      var post :| post in s.posts && Some(post.sno) == f.postSno && r == CommentOnPost(s, user, post, f);
      CommentOnPostKeepsIntegrity(s, user, post, f);
    }
  }

  // ---------------------------------------------------------------------------------------
  // A reply's parent from another post

  /** Every reply's parent comment belongs to the reply's own post. */
  predicate RepliesStayOnPost(cs: seq<Comment>) {
    forall c, d :: c in cs && d in cs && c.parent == Some(d.sno) ==> d.post == c.post
  }

  /** `postComment` looks the parent up by sno alone. A reply submitted on one post that
      names a comment `d` of another post as its parent is stored, so replies no longer stay
      on their post. On the submitted post's page the reply is filed under `d`'s sno, which
      is the sno of none of that post's top-level comments. */
  lemma CrossPostReplyAccepted(s: Store, user: string, f: CommentForm, d: Comment)
    requires IncreasingSnos(s.comments)
    requires HasPost(s.posts, f.postSno)
    requires !AllSpace(f.text)
    requires d in s.comments && f.parentSno == Some(d.sno) && Some(d.post) != f.postSno
    ensures PostComment(s, user, f).outcome == ReplyPosted
    ensures !RepliesStayOnPost(PostComment(s, user, f).store.comments)
    ensures var cs := PostComment(s, user, f).store.comments;
      && cs[|s.comments|] in Replies(cs, f.postSno)
      && forall t :: t in TopLevel(cs, f.postSno) ==> t.sno != d.sno
  {
    var r := PostComment(s, user, f);
    var post :| post in s.posts && Some(post.sno) == f.postSno && r == CommentOnPost(s, user, post, f);
    assert HasComment(s.comments, d.sno);
    var cs := r.store.comments;
    var c := cs[|s.comments|];
    assert cs == s.comments + [c];
    ForeignParentOrphans(s.comments, c, d, f.postSno);
  }

  /** Appending a reply on post `key` whose parent `d` is on another post: the reply is
      filed among `key`'s replies, yet no top-level comment of `key` has its parent's sno,
      and the table no longer keeps replies on their parents' posts. */
  lemma ForeignParentOrphans(cs: seq<Comment>, c: Comment, d: Comment, key: Option<nat>)
    requires IncreasingSnos(cs)
    requires d in cs && c.parent == Some(d.sno) && Some(c.post) == key && Some(d.post) != key
    ensures !RepliesStayOnPost(cs + [c])
    ensures c in Replies(cs + [c], key)
    ensures forall t :: t in TopLevel(cs + [c], key) ==> t.sno != d.sno
  {
    var all := cs + [c];
    assert c in all && d in all;
    forall t | t in TopLevel(all, key)
      ensures t.sno != d.sno
    {
      assert t in all && t.parent.None? && Some(t.post) == key;
      assert t != c && t != d;
      assert t in cs;
      var i :| 0 <= i < |cs| && cs[i] == t;
      var j :| 0 <= j < |cs| && cs[j] == d;
      SnosDiffer(cs, i, j);
    }
  }

  /** Some comment of the post `post` has serial number `sno`. */
  predicate HasCommentOnPost(cs: seq<Comment>, sno: int, post: Option<int>) {
    exists d :: d in cs && d.sno == sno && Some(d.post) == post
  }

  /** `postComment` with the parent looked up among the submitted post's comments only
      (`filter(sno=parentSno, post=post)`): a parent from another post is answered as an
      invalid parent, and everything else behaves as `PostComment`. */
  function PostCommentOnPost(s: Store, user: string, f: CommentForm): (r: CommentReply)
    ensures r.outcome.Posted() && f.parentSno.Some? ==>
      exists d :: d in s.comments && d.sno == f.parentSno.value && Some(d.post) == f.postSno
    ensures r.outcome.Posted() ==> r == PostComment(s, user, f)
    ensures !r.outcome.Posted() ==> r.store == s && r.response.Redirect? && r.response.tag == Some(Error)
    ensures (f.parentSno.None? ||
             forall d :: d in s.comments && d.sno == f.parentSno.value ==> Some(d.post) == f.postSno) ==>
      r == PostComment(s, user, f)
    ensures !PostComment(s, user, f).outcome.Posted() ==> r == PostComment(s, user, f)
    ensures r != PostComment(s, user, f) ==>
      r == CommentReply(s, InvalidParent, Redirect(PostComment(s, user, f).response.target, Some(Error)))
  {
    var r := PostComment(s, user, f);
    if r.outcome.Posted() && f.parentSno.Some? && !HasCommentOnPost(s.comments, f.parentSno.value, f.postSno) then
      CommentReply(s, InvalidParent, Redirect(r.response.target, Some(Error)))
    else
      r
  }

  /** In a table with increasing serial numbers, a submission that `postComment` would
      store with a parent `d` from another post is refused as an invalid parent, and nothing
      is stored. */
  lemma ForeignParentRefused(s: Store, user: string, f: CommentForm, d: Comment)
    requires IncreasingSnos(s.comments)
    requires PostComment(s, user, f).outcome.Posted()
    requires d in s.comments && f.parentSno == Some(d.sno) && Some(d.post) != f.postSno
    ensures PostCommentOnPost(s, user, f).outcome == InvalidParent
    ensures PostCommentOnPost(s, user, f).store == s
  {
    forall e | e in s.comments && e.sno == d.sno
      ensures e == d
    {
      var i :| 0 <= i < |s.comments| && s.comments[i] == e;
      var j :| 0 <= j < |s.comments| && s.comments[j] == d;
      if i != j {
        SnosDiffer(s.comments, i, j);
      }
    }
    assert !HasCommentOnPost(s.comments, d.sno, f.postSno);
  }

  /** Appending a comment numbered past the table whose parent, if any, is on its own post
      keeps every reply on its post's thread. */
  lemma AppendKeepsThreads(s: Store, c: Comment)
    requires Integrity(s)
    requires RepliesStayOnPost(s.comments)
    requires forall e :: e in s.comments ==> e.sno < c.sno
    requires c.parent.Some? ==> exists d :: d in s.comments && d.sno == c.parent.value && d.post == c.post
    ensures RepliesStayOnPost(s.comments + [c])
  {
    var cs := s.comments + [c];
    forall x, y | x in cs && y in cs && x.parent == Some(y.sno)
      ensures y.post == x.post
    {
      if x == c && y != c {
        var d :| d in s.comments && d.sno == c.parent.value && d.post == c.post;
        var i :| 0 <= i < |s.comments| && s.comments[i] == y;
        var j :| 0 <= j < |s.comments| && s.comments[j] == d;
        if i != j {
          SnosDiffer(s.comments, i, j);
        }
      } else if x != c && y == c {
        assert false;
      }
    }
  }

  /** With the parent checked against the post, posting keeps every reply on its own
      post's thread, provided the table was consistent before. */
  lemma PostCommentOnPostKeepsThreads(s: Store, user: string, f: CommentForm)
    requires Integrity(s)
    requires RepliesStayOnPost(s.comments)
    ensures RepliesStayOnPost(PostCommentOnPost(s, user, f).store.comments)
  {
    var r := PostCommentOnPost(s, user, f);
    if r.outcome.Posted() {
      var post :| post in s.posts && Some(post.sno) == f.postSno && r == CommentOnPost(s, user, post, f);
      var c := r.store.comments[|s.comments|];
      assert r.store.comments == s.comments + [c];
      AppendKeepsThreads(s, c);
    }
  }
}

=== FILE: domain.dfy ===
/** The records the views read and write, and the responses they return. Each store is a
    sequence in primary-key order, which is the order the database yields rows in when a
    query names no ordering. */
module Domain {
  import opened Options

  /** An account: `create_user(username, email, password)` plus the first and last name. */
  datatype User = User(username: string, email: string, password: string,
                       firstName: string, lastName: string)

  /** A blog post. `author` is the author's username; `likes` the usernames that liked it. */
  datatype Post = Post(sno: nat, title: string, content: string, slug: string,
                       author: string, likes: set<string>)

  /** A comment on the post numbered `post`; `parent` is the sno of the comment it replies
      to, None for a top-level comment. `user` is the request's user; the view makes no login
      check, and what happens to an anonymous author is framework behaviour. */
  datatype Comment = Comment(sno: nat, text: string, user: string, post: nat, parent: Option<nat>)

  /** A message left through the contact form. */
  datatype Contact = Contact(sno: nat, name: string, phone: string, email: string, content: string)

  /** The level of the one-time status message a handler queues for the next page. */
  datatype Tag = Success | Error | Warning

  /** What a handler answers: a rendered template, a redirect, or an unhandled database
      error that surfaces as a server error. */
  datatype Response =
    | Render(template: string, tag: Option<Tag>)
    | Redirect(target: string, tag: Option<Tag>)
    | ServerError

  /** The serial number the database hands the next row: one past the largest in use. */
  function NextSno(snos: seq<nat>): (r: nat)
    ensures r >= 1
    ensures forall i :: 0 <= i < |snos| ==> snos[i] < r
  {
    if |snos| == 0 then 1
    else
      var rest := NextSno(snos[1..]);
      if snos[0] < rest then rest else snos[0] + 1
  }
}

=== FILE: home_views.dfy ===
/** The site handlers with input rules of their own (EchoThoughts/home/views.py): the contact
    form's length thresholds, the capped case-insensitive search, and sign-up's ordered
    validation. */
module HomeViews {
  import opened Options
  import opened Seqs
  import opened Text
  import opened Domain

  // ---------------------------------------------------------------------------------------
  // Contact form (`contact`)

  const ContactTemplate := "home/contact.html"

  /** The fields of a contact form submission. */
  datatype ContactForm = ContactForm(name: string, email: string, phone: string, content: string)

  /** The contact table after the request, and the page rendered. */
  datatype ContactReply = ContactReply(contacts: seq<Contact>, response: Response)

  /** `contact`: a GET (`submission == None`) renders the empty form. A POST is rejected when
      the name is shorter than 2, the email than 3, the phone than 10 or the message than 2
      characters; otherwise one Contact is stored. Every path renders the same form page,
      with an error or success message for a POST. */
  function SubmitContact(contacts: seq<Contact>, submission: Option<ContactForm>): (r: ContactReply)
    ensures r.response.Render? && r.response.template == ContactTemplate
    ensures submission.None? ==> r.contacts == contacts && r.response.tag == None
    ensures submission.Some? ==>
      var f := submission.value;
      var accepted := |f.name| >= 2 && |f.email| >= 3 && |f.phone| >= 10 && |f.content| >= 2;
      && r.response.tag == Some(if accepted then Success else Error)
      && (!accepted ==> r.contacts == contacts)
      && (accepted ==>
            && |r.contacts| == |contacts| + 1
            && r.contacts[..|contacts|] == contacts
            && var c := r.contacts[|contacts|];
               && c.name == f.name && c.email == f.email && c.phone == f.phone && c.content == f.content
               && forall i :: 0 <= i < |contacts| ==> contacts[i].sno < c.sno)
  {
    match submission
    case None => ContactReply(contacts, Render(ContactTemplate, None))
    case Some(f) =>
      if |f.name| < 2 || |f.email| < 3 || |f.phone| < 10 || |f.content| < 2 then
        ContactReply(contacts, Render(ContactTemplate, Some(Error)))
      else
        var snos := Map(contacts, (e: Contact) => e.sno);
        var c := Contact(NextSno(snos), f.name, f.phone, f.email, f.content);
        assert forall i :: 0 <= i < |contacts| ==> contacts[i].sno < c.sno by {
          assert forall i :: 0 <= i < |contacts| ==> snos[i] == contacts[i].sno;
        }
        ContactReply(contacts + [c], Render(ContactTemplate, Some(Success)))
  }

  /** The accepted and the rejected submission end on the same page and differ only in the
      message level and in whether a row was added, whichever threshold rejected the form. */
  lemma ContactOutcomesShareThePage(contacts: seq<Contact>, good: ContactForm, bad: ContactForm)
    requires |good.name| >= 2 && |good.email| >= 3 && |good.phone| >= 10 && |good.content| >= 2
    requires !(|bad.name| >= 2 && |bad.email| >= 3 && |bad.phone| >= 10 && |bad.content| >= 2)
    ensures SubmitContact(contacts, Some(good)).response == Render(ContactTemplate, Some(Success))
    ensures SubmitContact(contacts, Some(bad)).response == Render(ContactTemplate, Some(Error))
    ensures |SubmitContact(contacts, Some(good)).contacts| == |contacts| + 1
    ensures SubmitContact(contacts, Some(bad)).contacts == contacts
  {
  }

  /** Contact serial numbers increase along the table (primary-key order). */
  predicate IncreasingContactSnos(cs: seq<Contact>) {
    IncreasingBy(cs, (c: Contact) => c.sno)
  }

  /** Every request to the contact page keeps the serial numbers increasing, so no two
      stored messages share one. */
  lemma SubmitContactKeepsSnosIncreasing(contacts: seq<Contact>, submission: Option<ContactForm>)
    requires IncreasingContactSnos(contacts)
    ensures IncreasingContactSnos(SubmitContact(contacts, submission).contacts)
  {
    var cs := SubmitContact(contacts, submission).contacts;
    if cs != contacts {
      var n := |contacts|;
      assert cs == contacts + [cs[n]];
      forall i, j | 0 <= i < j < |cs|
        ensures cs[i].sno < cs[j].sno
      {
        assert cs[i] == contacts[i];
        if j < n {
          assert cs[j] == contacts[j];
        }
      }
    }
  }

  // ---------------------------------------------------------------------------------------
  // Search (`search`)

  /** Longer queries are answered with no results. */
  const MaxQueryLength := 78

  /** The posts found, and the message level of the page (a warning when nothing was found). */
  datatype SearchReply = SearchReply(posts: seq<Post>, tag: Option<Tag>)

  /** The post's title, content or author's username contains the query, ignoring case. */
  predicate Matches(p: Post, query: string) {
    IContains(p.title, query) || IContains(p.content, query) || IContains(p.author, query)
  }

  /** `search`: a query over 78 characters finds nothing; otherwise the union of the posts
      whose title, content or author's username contains it. The union holds each post once,
      and the page warns exactly when it is empty. */
  method Search(posts: seq<Post>, query: string) returns (r: SearchReply)
    ensures |query| > MaxQueryLength ==> r.posts == []
    ensures |query| <= MaxQueryLength ==> forall p :: p in r.posts <==> p in posts && Matches(p, query)
    ensures Distinct(r.posts)
    ensures r.tag == (if r.posts == [] then Some(Warning) else None)
  {
    var found: seq<Post>;
    if |query| > MaxQueryLength {
      found := [];
    } else {
      var byTitle := Filter(posts, (p: Post) => IContains(p.title, query));
      var byAuthor := Filter(posts, (p: Post) => IContains(p.author, query));
      var byContent := Filter(posts, (p: Post) => IContains(p.content, query));
      found := Union(byTitle, byContent, byAuthor);
    }
    r := SearchReply(found, if found == [] then Some(Warning) else None);
  }

  /** The empty query matches every post's fields. */
  lemma EmptyQueryMatchesEveryPost(p: Post)
    ensures Matches(p, "")
  {
    EmptyQueryMatches(p.title);
  }

  /** A post whose title starts with the query, in any letter case, matches it, so `Search`
      finds it when the query has at most 78 characters. */
  lemma TitlePrefixMatches(p: Post, query: string)
    requires |query| <= |p.title|
    requires Lower(p.title[..|query|]) == Lower(query)
    ensures Matches(p, query)
  {
    IContainsAt(p.title, query, 0);
  }

  // ---------------------------------------------------------------------------------------
  // Sign-up (`handleSignUp`, POST requests)

  /** Usernames longer than this are refused. */
  const MaxUsernameLength := 10

  /** The sign-up form's fields. */
  datatype SignUpForm = SignUpForm(username: string, email: string, firstName: string,
                                   lastName: string, pass1: string, pass2: string)

  /** The view's three checks, in the order they run. */
  datatype SignUpError = UsernameTooLong | InvalidUsername | PasswordMismatch

  /** How sign-up ended: rejected by a check, an account created, or the database refusing
      a username that is already taken (an unhandled integrity error). */
  datatype SignUpOutcome = Rejected(error: SignUpError) | Created | UsernameTaken

  datatype SignUpReply = SignUpReply(users: seq<User>, outcome: SignUpOutcome, response: Response)

  /** Some account already has this username. */
  predicate Taken(users: seq<User>, username: string) {
    exists u :: u in users && u.username == username
  }

  /** No two accounts share a username (the database's unique constraint). */
  predicate UniqueUsernames(users: seq<User>) {
    forall i, j :: 0 <= i < j < |users| ==> users[i].username != users[j].username
  }

  /** The first of the view's checks that the form fails, if any. */
  function FirstFailure(f: SignUpForm): (e: Option<SignUpError>)
    ensures e == Some(UsernameTooLong) <==> |f.username| > MaxUsernameLength
    ensures e == Some(InvalidUsername) <==> |f.username| <= MaxUsernameLength && !IsAlnum(f.username)
    ensures e == Some(PasswordMismatch) <==>
      |f.username| <= MaxUsernameLength && IsAlnum(f.username) && f.pass1 != f.pass2
    ensures e == None <==> 1 <= |f.username| <= MaxUsernameLength && IsAlnum(f.username) && f.pass1 == f.pass2
  {
    if |f.username| > MaxUsernameLength then Some(UsernameTooLong)
    else if !IsAlnum(f.username) then Some(InvalidUsername)
    else if f.pass1 != f.pass2 then Some(PasswordMismatch)
    else None
  }

  /** `handleSignUp`: the first failed check decides the error and nothing is stored;
      a form that passes creates exactly one account with the given fields, unless the
      username is taken, which the database refuses. Checked outcomes redirect home. */
  function SignUp(users: seq<User>, f: SignUpForm): (r: SignUpReply)
    ensures r.outcome.Rejected? <==> FirstFailure(f).Some?
    ensures r.outcome.Rejected? ==> r.outcome.error == FirstFailure(f).value
    ensures r.outcome.UsernameTaken? <==> FirstFailure(f).None? && Taken(users, f.username)
    ensures r.outcome.Created? ==> 1 <= |f.username| <= MaxUsernameLength && IsAlnum(f.username)
    ensures !r.outcome.Created? ==> r.users == users
    ensures r.outcome.Created? ==>
      r.users == users + [User(f.username, f.email, f.pass1, f.firstName, f.lastName)]
    ensures r.outcome.Rejected? ==> r.response == Redirect("home", Some(Error))
    ensures r.outcome.Created? ==> r.response == Redirect("home", Some(Success))
    ensures r.outcome.UsernameTaken? ==> r.response == ServerError
  {
    match FirstFailure(f)
    case Some(e) => SignUpReply(users, Rejected(e), Redirect("home", Some(Error)))
    case None =>
      if Taken(users, f.username) then SignUpReply(users, UsernameTaken, ServerError)
      else
        var u := User(f.username, f.email, f.pass1, f.firstName, f.lastName);
        SignUpReply(users + [u], Created, Redirect("home", Some(Success)))
  }

  /** Sign-up never lets two accounts share a username. */
  lemma SignUpKeepsUsernamesUnique(users: seq<User>, f: SignUpForm)
    requires UniqueUsernames(users)
    ensures UniqueUsernames(SignUp(users, f).users)
  {
    var r := SignUp(users, f);
    if r.outcome.Created? {
      var us := r.users;
      forall i, j | 0 <= i < j < |us|
        ensures us[i].username != us[j].username
      {
        assert us[i] == users[i];
        if j == |users| {
          assert users[i] in users;
        } else {
          assert us[j] == users[j];
        }
      }
    }
  }

  /** The length check runs first: an over-long username is reported as such even when it
      is not alphanumeric and the passwords differ. */
  lemma LengthCheckedFirst(users: seq<User>, f: SignUpForm)
    requires |f.username| > MaxUsernameLength
    ensures SignUp(users, f).outcome == Rejected(UsernameTooLong)
    ensures SignUp(users, f).users == users
  {
  }
}

=== FILE: seqs.dfy ===
/** A value that may be absent: a nullable foreign key, an optional form field, a lookup miss. */
module Options {
  datatype Option<+T> = None | Some(value: T)
}

/** Sequence helpers shared by the view models: filtering (a queryset `filter`), first match
    (`.first()`), and duplicate-free union (SQL `UNION`). */
module Seqs {
  import opened Options

  /** The elements of `s` that satisfy `p`, in the order `s` holds them. */
  function Filter<T(!new)>(s: seq<T>, p: T -> bool): (r: seq<T>)
    ensures |r| <= |s|
    ensures forall i :: 0 <= i < |r| ==> p(r[i])
    ensures forall x :: x in r <==> x in s && p(x)
    decreases |s|
  {
    if |s| == 0 then []
    else Filter(s[..|s| - 1], p) + (if p(s[|s| - 1]) then [s[|s| - 1]] else [])
  }

  /** `f` applied to each element of `s`, in order (`values_list` of one column). */
  function Map<A, B>(s: seq<A>, f: A -> B): (r: seq<B>)
    ensures |r| == |s|
    ensures forall i :: 0 <= i < |s| ==> r[i] == f(s[i])
  {
    seq(|s|, i requires 0 <= i < |s| => f(s[i]))
  }

  /** When no element qualifies, the filter selects nothing. */
  lemma {:induction false} FilterNone<T(!new)>(s: seq<T>, p: T -> bool)
    requires forall x :: x in s ==> !p(x)
    ensures Filter(s, p) == []
    decreases |s|
  {
    if |s| > 0 {
      var init := s[..|s| - 1];
      assert forall x :: x in init ==> x in s;
      FilterNone(init, p);
    }
  }

  /** Filtering a sequence extended by one element extends the filtered sequence by that
      element when it qualifies, and by nothing otherwise. */
  lemma FilterSnoc<T(!new)>(s: seq<T>, x: T, p: T -> bool)
    ensures Filter(s + [x], p) == Filter(s, p) + (if p(x) then [x] else [])
  {
    assert (s + [x])[..|s|] == s;
  }

  /** Filtering keeps every satisfying occurrence and drops every other one. */
  lemma {:induction false} FilterCount<T(!new)>(s: seq<T>, p: T -> bool, x: T)
    ensures multiset(Filter(s, p))[x] == if p(x) then multiset(s)[x] else 0
    decreases |s|
  {
    if |s| > 0 {
      var init, last := s[..|s| - 1], s[|s| - 1];
      FilterCount(init, p, x);
      assert s == init + [last];
      assert multiset(s)[x] == multiset(init)[x] + multiset{last}[x];
    }
  }

  /** Filtering never reorders: two elements of the result appear in `s` in the same order. */
  lemma {:induction false} FilterKeepsOrder<T(!new)>(s: seq<T>, p: T -> bool, i: int, j: int)
    requires 0 <= i < j < |Filter(s, p)|
    ensures exists a, b :: 0 <= a < b < |s| && s[a] == Filter(s, p)[i] && s[b] == Filter(s, p)[j]
    decreases |s|
  {
    var init, last := s[..|s| - 1], s[|s| - 1];
    var f := Filter(init, p);
    assert Filter(s, p) == f + (if p(last) then [last] else []);
    if j < |f| {
      FilterKeepsOrder(init, p, i, j);
      var a, b :| 0 <= a < b < |init| && init[a] == f[i] && init[b] == f[j];
      assert s[a] == init[a] && s[b] == init[b];
    } else {
      assert Filter(s, p)[i] == f[i] && f[i] in f;
      var a :| 0 <= a < |init| && init[a] == f[i];
      assert s[a] == init[a] && s[|s| - 1] == Filter(s, p)[j];
    }
  }

  /** The first element of `s` satisfying `p`, or None when there is none. */
  function First<T(!new)>(s: seq<T>, p: T -> bool): (r: Option<T>)
    ensures r.None? <==> forall x :: x in s ==> !p(x)
    ensures r.Some? ==> r.value in s && p(r.value)
    ensures r.Some? ==>
      exists i :: 0 <= i < |s| && s[i] == r.value && forall j :: 0 <= j < i ==> !p(s[j])
  {
    if |s| == 0 then None
    else if p(s[0]) then Some(s[0])
    else First(s[1..], p)
  }

  /** `key` strictly increases along `s` (a serial-number column in primary-key order). */
  predicate IncreasingBy<T>(s: seq<T>, key: T -> int) {
    forall i, j :: 0 <= i < j < |s| ==> key(s[i]) < key(s[j])
  }

  /** No element occurs twice. */
  predicate Distinct<T(==)>(s: seq<T>) {
    forall i, j :: 0 <= i < j < |s| ==> s[i] != s[j]
  }

  /** In a sequence without repetitions, every element occurs exactly once. */
  lemma {:induction false} DistinctCount<T>(s: seq<T>, x: T)
    requires Distinct(s)
    requires x in s
    ensures multiset(s)[x] == 1
    decreases |s|
  {
    var init, last := s[..|s| - 1], s[|s| - 1];
    assert s == init + [last];
    assert multiset(s) == multiset(init) + multiset{last};
    if x == last {
      assert x !in init;
    } else {
      assert x in init;
      assert Distinct(init) by {
        forall i, j | 0 <= i < j < |init|
          ensures init[i] != init[j]
        {
          assert init[i] == s[i] && init[j] == s[j];
        }
      }
      DistinctCount(init, x);
    }
  }

  /** The union of three sequences with every value kept once, in first-occurrence order. */
  method Union<T(==)>(a: seq<T>, b: seq<T>, c: seq<T>) returns (r: seq<T>)
    ensures forall x :: x in r <==> x in a || x in b || x in c
    ensures Distinct(r)
  {
    var all := a + b + c;
    r := [];
    for i := 0 to |all|
      invariant forall x :: x in r <==> x in all[..i]
      invariant Distinct(r)
    {
      assert all[..i + 1] == all[..i] + [all[i]];
      if all[i] !in r {
        r := r + [all[i]];
      }
    }
    assert all[..|all|] == all;
  }
}

=== FILE: text.dfy ===
/** The string operations the views rely on: Python's `str.strip` and `str.isalnum`, and the
    database's case-insensitive `icontains` match. */
module Text {

  /** A character Python's `str.isspace` accepts: the ASCII separators 0x09-0x0D and
      0x1C-0x1F, the space, and the Unicode white-space characters. */
  predicate IsSpace(c: char) {
    || ('\t' <= c <= '\r')
    || ('\U{1C}' <= c <= ' ')
    || c == '\U{85}' || c == '\U{A0}' || c == '\U{1680}'
    || ('\U{2000}' <= c <= '\U{200A}')
    || c == '\U{2028}' || c == '\U{2029}' || c == '\U{202F}' || c == '\U{205F}'
    || c == '\U{3000}'
  }

  /** Every character of `s` is white space (vacuously true of the empty string). */
  predicate AllSpace(s: string) {
    forall i :: 0 <= i < |s| ==> IsSpace(s[i])
  }

  /** The number of white-space characters `s` starts with. */
  function LeadingSpace(s: string): (n: nat)
    ensures n <= |s|
    ensures forall i :: 0 <= i < n ==> IsSpace(s[i])
    ensures n == |s| || !IsSpace(s[n])
  {
    if |s| == 0 || !IsSpace(s[0]) then 0
    else
      var rest := s[1..];
      var n := LeadingSpace(rest);
      assert forall i :: 1 <= i <= n ==> s[i] == rest[i - 1];
      1 + n
  }

  /** The length of `s` without the white-space characters it ends with. */
  function TrailingStart(s: string): (n: nat)
    ensures n <= |s|
    ensures forall i :: n <= i < |s| ==> IsSpace(s[i])
    ensures n == 0 || !IsSpace(s[n - 1])
  {
    if |s| == 0 || !IsSpace(s[|s| - 1]) then |s|
    else
      var init := s[..|s| - 1];
      var n := TrailingStart(init);
      assert forall i :: 0 <= i < |init| ==> s[i] == init[i];
      n
  }

  /** Python's `s.strip()`: the slice of `s` between its leading and trailing white space.
      The result is empty exactly when `s` is all white space. */
  function Strip(s: string): (r: string)
    ensures exists i :: MatchAt(s, r, i) && AllSpace(s[..i]) && AllSpace(s[i + |r|..])
    ensures r == [] || (!IsSpace(r[0]) && !IsSpace(r[|r| - 1]))
    ensures r == [] <==> AllSpace(s)
  {
    var a := LeadingSpace(s);
    var left := s[a..];
    var b := TrailingStart(left);
    var r := left[..b];
    assert MatchAt(s, r, a) && AllSpace(s[..a]) && AllSpace(s[a + |r|..]) by {
      assert s[a + |r|..] == left[b..];
    }
    assert r == [] || (!IsSpace(r[0]) && !IsSpace(r[|r| - 1])) by {
      if r != [] {
        assert r[0] == s[a];
      }
    }
    assert AllSpace(s) ==> r == [] by {
      if AllSpace(s) {
        assert a == |s|;
      }
    }
    r
  }

  /** `str.strip` is the only slice of `s` that is flanked by white space alone and neither
      starts nor ends with white space: any such slice is `Strip(s)`. */
  lemma StripUnique(s: string, r: string, i: int)
    requires MatchAt(s, r, i) && AllSpace(s[..i]) && AllSpace(s[i + |r|..])
    requires r == [] || (!IsSpace(r[0]) && !IsSpace(r[|r| - 1]))
    ensures r == Strip(s)
  {
    assert forall k :: 0 <= k < i ==> IsSpace(s[k]) by {
      assert forall k :: 0 <= k < i ==> s[..i][k] == s[k];
    }
    assert forall k :: i + |r| <= k < |s| ==> IsSpace(s[k]) by {
      assert forall k :: i + |r| <= k < |s| ==> s[i + |r|..][k - (i + |r|)] == s[k];
    }
    if r != [] {
      assert s[i] == r[0];
      var a := LeadingSpace(s);
      assert a == i;
      var left := s[a..];
      assert left[..|r|] == r;
      assert forall k :: |r| <= k < |left| ==> IsSpace(left[k]) by {
        assert forall k :: |r| <= k < |left| ==> left[k] == s[a + k];
      }
      assert left[|r| - 1] == r[|r| - 1];
      var b := TrailingStart(left);
      assert b == |r|;
    }
  }

  /** An ASCII letter or digit. */
  predicate IsAlnumChar(c: char) {
    ('a' <= c <= 'z') || ('A' <= c <= 'Z') || ('0' <= c <= '9')
  }

  /** Every character of `s` is an ASCII letter or digit, checked one character at a time. */
  function AllAlnum(s: string): (b: bool)
    ensures b <==> forall i :: 0 <= i < |s| ==> IsAlnumChar(s[i])
  {
    if |s| == 0 then true
    else
      var rest := AllAlnum(s[1..]);
      assert forall i :: 1 <= i < |s| ==> s[i] == s[1..][i - 1];
      IsAlnumChar(s[0]) && rest
  }

  /** Python's `s.isalnum()` over ASCII: true exactly when `s` has at least one character
      and all of them are letters or digits. */
  function IsAlnum(s: string): (b: bool)
    ensures b <==> |s| > 0 && forall i :: 0 <= i < |s| ==> IsAlnumChar(s[i])
  {
    |s| > 0 && AllAlnum(s)
  }

  /** ASCII case folding of one character. */
  function LowerChar(c: char): (r: char)
    ensures 'A' <= c <= 'Z' ==> 'a' <= r <= 'z' && r as int - c as int == 32
    ensures !('A' <= c <= 'Z') ==> r == c
  {
    if 'A' <= c <= 'Z' then (c as int + 32) as char else c
  }

  /** ASCII case folding of a string, character by character. */
  function Lower(s: string): (r: string)
    ensures |r| == |s|
    ensures forall i :: 0 <= i < |s| ==> r[i] == LowerChar(s[i])
  {
    seq(|s|, i requires 0 <= i < |s| => LowerChar(s[i]))
  }

  /** `needle` occurs in `hay` starting at position `i`. */
  predicate MatchAt(hay: string, needle: string, i: int) {
    0 <= i && i + |needle| <= |hay| && hay[i..i + |needle|] == needle
  }

  /** Whether `needle` occurs in `hay` at some position `k` or later. */
  function ContainsFrom(hay: string, needle: string, k: nat): (b: bool)
    ensures b <==> exists i :: k <= i && MatchAt(hay, needle, i)
    decreases |hay| - k
  {
    if k + |needle| > |hay| then false
    else MatchAt(hay, needle, k) || ContainsFrom(hay, needle, k + 1)
  }

  /** `needle` is a substring of `hay`. */
  function Contains(hay: string, needle: string): (b: bool)
    ensures b <==> exists i :: 0 <= i && MatchAt(hay, needle, i)
  {
    ContainsFrom(hay, needle, 0)
  }

  /** The `icontains` lookup: `query` occurs in `field` when both are case folded. */
  function IContains(field: string, query: string): (b: bool)
    ensures b <==> exists i :: 0 <= i && MatchAt(Lower(field), Lower(query), i)
  {
    Contains(Lower(field), Lower(query))
  }

  /** The empty query occurs in every field, so it selects everything. */
  lemma EmptyQueryMatches(field: string)
    ensures IContains(field, "")
  {
    assert MatchAt(Lower(field), Lower(""), 0);
  }

  /** A match found at position `i` in the field is a match of the case-insensitive search,
      whatever the case of the query. */
  lemma IContainsAt(field: string, query: string, i: nat)
    requires i + |query| <= |field|
    requires Lower(field[i..i + |query|]) == Lower(query)
    ensures IContains(field, query)
  {
    assert Lower(field)[i..i + |query|] == Lower(field[i..i + |query|]);
    assert MatchAt(Lower(field), Lower(query), i);
  }
}
